=== FILE: README.md ===
# Book-RAG paragraphization and chunking, in Dafny

This project models the text-preparation core of the Book-RAG pipeline, `src/chunk.py`:

- **`split_into_paragraphs(cleaned)`.** It cuts a cleaned book text at every blank line (`"\n\n"`), strips each piece and drops the pieces that strip to nothing.
- **`chunk_paragraphs(paragraphs, size, overlap, book)`.** It walks the paragraph list with a cursor:
  - It accumulates whole paragraphs, joined by blank lines, until the text reaches `size` characters. It then emits a record `{id, text, meta: {book, para_idx_start, para_idx_end, char_count}}` with id `f'{book}_chunk_{n}'`.
  - It then steps the cursor back so that about `overlap` characters are repeated in the next chunk.
  - A "stuck" guard and a fallback exist to force progress.

The modules are:

- **`Strings`.** Python's `str.isspace`/`str.strip`, `str.split(sep)`, `sep.join` and decimal rendering, over `seq<char>`. Stripping is computed by index scans from both ends, as CPython does.
- **`Paragraphs`.** `SplitIntoParagraphs` and its round trip with the blank-line join.
- **`ChunkModel`.** The chunk records, plus a pure recursive reference definition `ChunksFrom`/`Chunks` of what the cursor loop emits:
  - `Gather` is the accumulation loop;
  - `OverlapStart` is the backward walk;
  - `NextStart` is where the cursor goes next.
- **`ChunkProperties`.** Lemmas about the emitted chunks: ids, metadata, text, the size threshold, the overlap rule, termination and coverage.
- **`Chunker`.** Methods that follow the source's `while` loops statement by statement. Each is proved to compute the reference definition. Ghost flags show that the stuck guard (src/chunk.py:42-46) never fires and the fallback (src/chunk.py:126-130) never moves the cursor.

Chunk text is modelled exactly as the loop builds it. A separator is written only once something has been accumulated, so leading empty paragraphs leave no separator behind. `AccumulateIsJoin` proves that this text is the blank-line join of the paragraphs after the leading empty ones. When no paragraph is empty, the text is the plain join.

On several points the program's own comments differ from what its code does; the model follows the code in each:

- The paragraph hint says to "drop very short fragments" (src/chunk.py:12). The code drops only pieces that strip to nothing (src/chunk.py:18).
- The chunk docstring promises a `char_span` and "start/end character indices" in `meta:{book, para_idx_start, para_idx_end, span}` (src/chunk.py:23, 27, 30). The code emits `char_count` and no span (src/chunk.py:71-76), and `ChunkMeta` models that record.
- The overlap comments are the third point, described next.

The docstring says to "slide by size-overlap" (src/chunk.py:26), and the loop's comment says "We want to keep 'overlap' characters" (src/chunk.py:91). The code, however, steps back only to a paragraph strictly before the chunk's last one (src/chunk.py:114). So when the last paragraph alone covers `overlap` characters, no overlap is kept at all. Take three 50-character paragraphs with `size = 80` and `overlap = 20`: the chunks are paragraphs 0-1 and then paragraph 2, with no shared paragraph. `ChunkProperties.ThreeEqualParagraphsNoOverlap` proves this example, and `ChunkProperties.LongLastParagraphNoOverlap` states the rule in general.

## Model

| member | source | states |
|---|---|---|
| Strings.Strip | src/chunk.py:18 | `p.strip()` has no whitespace at either end, is no longer than `p`, and is empty exactly when `p` is all whitespace |
| Strings.StripUnique | src/chunk.py:18 | stripping a stripped core wrapped in whitespace returns exactly that core, so `strip` has one answer |
| Strings.StripIdempotent | src/chunk.py:18 | stripping twice is stripping once |
| Strings.Find | src/chunk.py:17 | the scan inside `split`: a found index holds the separator, and no earlier index from `from` does; `None` means the separator occurs nowhere from `from` on |
| Strings.Split | src/chunk.py:17 | `split('\n\n')` gives at least one piece and no piece contains the separator |
| Strings.JoinSplit | src/chunk.py:17 | joining the pieces of a split with the separator gives the text back, so no text is lost |
| Strings.SplitLeftmost | src/chunk.py:17 | `split` cuts at the leftmost occurrence each time: no piece but the last, extended by all but the last character of the separator, contains the separator |
| Strings.SplitCons | src/chunk.py:17 | when a prefix and the separator's head cannot hold the separator, splitting the prefix, the separator and a rest gives the prefix followed by the rest's pieces |
| Strings.SplitUnique | src/chunk.py:17 | any pieces that are free of the separator, are cut leftmost and join back to the text are exactly the text's `split` |
| Strings.NatToString | src/chunk.py:69 | `str(chunk_id)` is a non-empty digit string with no leading zero unless the counter is 0; ParseNatToString fixes its value |
| Strings.ParseNatToString | src/chunk.py:69 | the decimal rendering of the chunk counter parses back to the counter |
| Strings.NatToStringInjective | src/chunk.py:69 | distinct counters render to distinct strings |
| Paragraphs.KeepOne | src/chunk.py:18 | one piece of the comprehension keeps at most one string; KeepStrippedSingle gives its value |
| Paragraphs.KeepStripped | src/chunk.py:18 | the comprehension keeps no more strings than there are pieces; KeepStrippedSound, KeepStrippedComplete and KeepStrippedAppend characterise it |
| Paragraphs.KeepStrippedSound | src/chunk.py:18 | every kept element is non-empty, stripped, and the stripped form of some piece |
| Paragraphs.KeepStrippedComplete | src/chunk.py:18 | every piece that does not strip to nothing is kept in stripped form |
| Paragraphs.KeepStrippedSingle | src/chunk.py:18 | one piece yields its stripped form, or nothing when it strips to empty |
| Paragraphs.KeepStrippedAppend | src/chunk.py:18 | the comprehension works piece by piece in list order: keeping from `a + b` is keeping from `a`, then from `b` |
| Paragraphs.SplitIntoParagraphs | src/chunk.py:7-18 | every paragraph is non-empty, stripped and free of blank lines; each is the stripped form of a blank-line-separated piece; every piece with non-whitespace content appears |
| Paragraphs.SplitIntoParagraphsNoBreak | src/chunk.py:17-18 | a text without a blank line yields its stripped form alone, or nothing when it is all whitespace |
| Paragraphs.SplitIntoParagraphsCons | src/chunk.py:7-18 | when `x` holds no blank line (even with a newline appended), the paragraphs of `x + "\n\n" + y` are those of `x` followed by those of `y`; with the case above this fixes the order and multiplicity of the result for every text |
| Paragraphs.OneParagraph | src/chunk.py:7-18 | a paragraph on its own yields exactly itself |
| Paragraphs.BreakThenParagraph | src/chunk.py:17-18 | a leading blank line before a paragraph is dropped, giving exactly that paragraph |
| Paragraphs.DoubleBlankLineBetween | src/chunk.py:17-18 | two paragraphs separated by four newlines give exactly those two paragraphs, in order, with no empty one between |
| Paragraphs.EmptyTextHasNoParagraphs | src/chunk.py:17-18 | the empty text has no paragraphs |
| Paragraphs.SplitJoinParagraphs | src/chunk.py:17 | splitting the blank-line join of paragraphs gives back exactly those paragraphs |
| Paragraphs.ParagraphsRoundTrip | src/chunk.py:7-18 | paragraphization of the blank-line join of paragraphs is the identity: nothing is lost, merged, split, reordered or altered |
| ChunkModel.ChunkId | src/chunk.py:69 | no contract of its own: `book + "_chunk_" + str(n)`; ChunkProperties.ChunkIdInjective and ChunkProperties.ChunkIdsDistinct characterise it |
| ChunkModel.Append | src/chunk.py:57-60 | no contract of its own: one accumulation step, writing the blank-line separator only after something has been accumulated; ChunkProperties.AccumulateIsJoin characterises the result |
| ChunkModel.Accumulate | src/chunk.py:54-62 | no contract of its own: the text the accumulation loop builds; ChunkProperties.AccumulateEmpty and ChunkProperties.AccumulateIsJoin characterise it |
| ChunkModel.Gather | src/chunk.py:54-62 | the accumulation loop stops at or after where it is and within the paragraph list; ChunkModel.GatherSpec gives the exact stopping index |
| ChunkModel.GatherSpec | src/chunk.py:53-62 | the accumulation stops at the first index where the text has reached `size` characters, or at the end of the paragraphs; before that it stays below `size` |
| ChunkModel.OverlapStart | src/chunk.py:95-122 | a paragraph the backward walk finds lies inside the chunk, at or before where the walk began; ChunkModel.OverlapStartSpec gives which one |
| ChunkModel.OverlapStartSpec | src/chunk.py:95-122 | the backward walk finds the last paragraph whose suffix of the chunk covers `overlap` characters, and finds none exactly when not even the whole chunk does |
| ChunkModel.OverlapStartAt | src/chunk.py:99-120 | conversely, the last qualifying paragraph is the one the walk finds |
| ChunkModel.OverlapStartNone | src/chunk.py:99-126 | conversely, when no paragraph qualifies the walk runs off the front of the chunk |
| ChunkModel.NextStart | src/chunk.py:85-134 | the next cursor is strictly after the chunk's start and at most one past its end |
| ChunkModel.MakeChunk | src/chunk.py:64-77 | no contract of its own: the record `{id, text, meta}` for one chunk; ChunkProperties.ChunkShape and ChunkProperties.ChunkIdsAndBook characterise the emitted records |
| ChunkModel.ChunksFrom | src/chunk.py:40-137 | no contract of its own: the reference recursion for the cursor loop from cursor `i` after `k` chunks; ChunkProperties.ChunksEmitted, ChunksChain, ChunkCountBound and NoChunksIff characterise it |
| ChunkModel.Chunks | src/chunk.py:21-140 | no contract of its own: the reference definition of `chunk_paragraphs`; Chunker.ChunkParagraphs is proved to compute it, and ChunkProperties.ChunkShape, ChunkSizeThreshold, ChunkStartsAdvance, NoChunksIff and EveryParagraphCovered characterise it |
| Chunker.AccumulateChunk | src/chunk.py:49-62 | the inner loop stops where `Gather` does, its text is the accumulation of exactly those paragraphs, and `chunk_paras` lists their indices in order |
| Chunker.StepBack | src/chunk.py:85-134 | the overlap step leaves the cursor at the reference `NextStart`; the fallback block (entered, for instance, with `size = 10` and `overlap = 100`) never moves the cursor |
| Chunker.EmitChunk | src/chunk.py:47-83 | one pass of the loop body either stops exactly when no more chunks are emitted, or emits the next chunk with id `book_chunk_k` and advances the cursor strictly |
| Chunker.ChunkParagraphs | src/chunk.py:21-140 | the loop emits exactly the reference chunks, at most one per paragraph, the `j`-th with id `book_chunk_j` and book `book`; the stuck guard and the fallback never change the cursor |
| ChunkProperties.AccumulateEmpty | src/chunk.py:57-65 | the accumulated text is empty exactly when every accumulated paragraph is empty |
| ChunkProperties.AccumulateIsJoin | src/chunk.py:54-62 | the accumulated text is the blank-line join of the paragraphs after the leading empty ones |
| ChunkProperties.AccumulateNonEmptyIsJoin | src/chunk.py:54-62 | with no empty paragraph, the accumulated text is the blank-line join |
| ChunkProperties.NextStartSpec | src/chunk.py:87-134 | the cursor goes to the first unconsumed paragraph unless it steps back, and it steps back to `p` exactly when overlap is asked for, paragraphs remain, the text exceeds `size - overlap`, and `p` is the last paragraph covering `overlap` characters and lies strictly inside the chunk |
| ChunkProperties.LongLastParagraphNoOverlap | src/chunk.py:103-115 | when the chunk's last paragraph alone covers `overlap` characters, the next chunk starts right after the chunk |
| ChunkProperties.ThreeEqualParagraphsNoOverlap | src/chunk.py:54-120 | three 50-character paragraphs with `size = 80` and `overlap = 20` give exactly two chunks, paragraphs 0-1 and paragraph 2 |
| ChunkProperties.ChunksEmitted | src/chunk.py:40-83 | every chunk is what the accumulation builds from that chunk's own start, numbered in order |
| ChunkProperties.ChunkCountBound | src/chunk.py:40-47 | the loop emits at most one chunk per paragraph, so it terminates |
| ChunkProperties.ChunkIdsAndBook | src/chunk.py:68-83 | the `j`-th chunk has id `book_chunk_j` and meta book `book` |
| ChunkProperties.ChunkIdInjective | src/chunk.py:69 | different counters give different ids |
| ChunkProperties.ChunkIdsDistinct | src/chunk.py:68-83 | no two chunks share an id |
| ChunkProperties.ChunkShape | src/chunk.py:61-76 | every chunk has non-empty text, `char_count` equal to its length, `para_idx_start <= para_idx_end` inside the list, and text that accumulates exactly those paragraphs |
| ChunkProperties.ChunkTextIsJoin | src/chunk.py:54-62 | with no empty paragraph, each chunk's text is its paragraphs joined by blank lines |
| ChunkProperties.ChunkSizeThreshold | src/chunk.py:54 | a chunk's paragraphs but its last stay below `size` characters, and the chunk reaches `size` unless it ends at the last paragraph |
| ChunkProperties.ChunksChain | src/chunk.py:85-134 | each chunk starts where `NextStart` leaves the cursor after the one before it |
| ChunkProperties.ChunkStartsAdvance | src/chunk.py:87-134 | each next start is strictly after the previous start and at most one past the previous end; it is the previous end plus one unless the overlap rule steps back |
| ChunkProperties.ChunkStartsIncrease | src/chunk.py:114-115 | chunk starts strictly increase along the whole list |
| ChunkProperties.NoChunksIff | src/chunk.py:40-65 | no chunk is emitted exactly when the cursor is at the end, `size` is not positive or every remaining paragraph is empty; otherwise the first chunk starts at the cursor |
| ChunkProperties.TrailingParagraphsEmpty | src/chunk.py:135-137 | only empty paragraphs remain after the last chunk |
| ChunkProperties.LastChunkEnd | src/chunk.py:40-62 | with `size >= 1` and no empty paragraph, there is a chunk and the last one ends at the last paragraph |
| ChunkProperties.CoveredFrom | src/chunk.py:40-134 | with `size >= 1` and no empty paragraph, every paragraph from the cursor on lies in some chunk |
| ChunkProperties.EveryParagraphCovered | src/chunk.py:21-140 | with `size >= 1` and no empty paragraph: chunks exist exactly when paragraphs do, the first starts at 0, the last ends at the last paragraph, and every paragraph lies in some chunk |

## Left out

- The `print` calls and the floating-point progress percentage (src/chunk.py:38, 43, 80-81, 139) are output only. They change no state the chunks depend on.
- Python's dynamic typing is not modelled. `paragraphs` is a list of `str`, `size` and `overlap` are integers, and `book` is a `str`.
- Strings.IsWhitespace lists the characters for which `str.isspace()` holds as a fixed table. Unicode database lookups are not modelled.
- The embedding and indexing step in src/embed_index.py is left out. It wraps SentenceTransformer, FAISS, numpy normalisation and pandas/parquet I/O. Its main logic is a row-count comparison over library objects. Its remaining checks are a type check on `meta_rows` that raises `ValueError` (src/embed_index.py:81-86) and missing-file checks that raise `FileNotFoundError` (src/embed_index.py:115-116, 121-122).
- src/compose.py is left out because every function in it raises `NotImplementedError`.
- src/retrieve.py, src/clean.py, src/ingest.py and src/app.py are left out because they are stubs. Their roles are download, file reading, vector search and the web UI.
- ChunkProperties.EveryParagraphCovered: assumes `size >= 1` and no empty paragraph. Empty paragraphs cannot come out of `split_into_paragraphs`. Trailing empty paragraphs are either absorbed into the last chunk, whose text then ends in a blank line, or left after it; ChunkProperties.TrailingParagraphsEmpty states that only empty paragraphs follow the last chunk.
- ChunkProperties.ChunkTextIsJoin: assumes no empty paragraph. ChunkProperties.AccumulateIsJoin states the general case, in which leading empty paragraphs leave no separator.

=== FILE: chunk_model.dfy ===
/**
  The chunk records of `chunk_paragraphs` (src/chunk.py) and a pure,
  recursive reference definition of what its cursor loop emits.  The
  methods in module Chunker follow the loop statement by statement and are
  proved to compute exactly `Chunks`; the lemmas in module ChunkProperties
  state what the emitted chunks satisfy.
 */
module ChunkModel {
  import opened Wrappers
  import opened Strings
  import opened Paragraphs

  /** The `meta` dictionary of one chunk. */
  datatype ChunkMeta = ChunkMeta(book: string, paraIdxStart: nat, paraIdxEnd: nat, charCount: nat)

  /** One emitted chunk: `{id, text, meta}`. */
  datatype Chunk = Chunk(id: string, text: string, meta: ChunkMeta)

  /** The id `f'{book}_chunk_{n}'` of the `n`-th emitted chunk. */
  function ChunkId(book: string, n: nat): string {
    book + "_chunk_" + NatToString(n)
  }

  /** One step of the accumulation: the separator is written only when
      something has been accumulated already. */
  function Append(acc: string, para: string): string {
    if acc != "" then acc + ParagraphBreak + para else para
  }

  /** The text the accumulation loop builds from the paragraphs `ps`, in order. */
  function Accumulate(ps: seq<string>): string {
    if |ps| == 0 then "" else Append(Accumulate(ps[..|ps| - 1]), ps[|ps| - 1])
  }

  /** The paragraphs `start .. j - 1` accumulate to fewer than `size`
      characters, so the accumulation loop goes on past `j`. */
  predicate BelowSize(paragraphs: seq<string>, start: nat, j: nat, size: int)
    requires start <= j <= |paragraphs|
  {
    |Accumulate(paragraphs[start..j])| < size
  }

  /** Where the accumulation loop started at `start` stops, having reached
      `i`: it goes on while paragraphs remain and the text has fewer than
      `size` characters. */
  function Gather(paragraphs: seq<string>, start: nat, i: nat, size: int): (stop: nat)
    requires start <= i <= |paragraphs|
    ensures i <= stop <= |paragraphs|
    decreases |paragraphs| - i
  {
    if i < |paragraphs| && BelowSize(paragraphs, start, i, size) then
      Gather(paragraphs, start, i + 1, size)
    else
      i
  }

  /** `Gather` stops at the first index `stop >= i` at which the
      accumulated text has reached `size` characters, or at the end of the
      paragraphs. */
  lemma {:induction false} GatherSpec(paragraphs: seq<string>, start: nat, i: nat, size: int)
    requires start <= i <= |paragraphs|
    ensures var stop := Gather(paragraphs, start, i, size);
      && (stop == |paragraphs| || !BelowSize(paragraphs, start, stop, size))
      && forall j :: i <= j < stop ==> BelowSize(paragraphs, start, j, size)
    decreases |paragraphs| - i
  {
    if i < |paragraphs| && BelowSize(paragraphs, start, i, size) {
      GatherSpec(paragraphs, start, i + 1, size);
    }
  }

  /** Characters covered by the paragraphs `q .. stop - 1` of a chunk,
      counted from its end, blank-line separators included. */
  function SuffixLen(paragraphs: seq<string>, q: nat, stop: nat): nat
    requires q <= stop <= |paragraphs|
  {
    |Join(paragraphs[q..stop], ParagraphBreak)|
  }

  /** Walking one paragraph further back adds that paragraph and, unless
      it is the chunk's last, one separator. */
  lemma SuffixLenStep(paragraphs: seq<string>, q: nat, stop: nat)
    requires q < stop <= |paragraphs|
    ensures SuffixLen(paragraphs, q, stop)
      == |paragraphs[q]| + (if q + 1 < stop then |ParagraphBreak| + SuffixLen(paragraphs, q + 1, stop) else 0)
  {
    assert paragraphs[q..stop][1..] == paragraphs[q + 1..stop];
  }

  /** The backward walk over a chunk `start .. stop - 1`, from paragraph `q`
      down: the last paragraph whose suffix covers at least `overlap`
      characters, or `None` if not even the whole chunk does. */
  function OverlapStart(paragraphs: seq<string>, start: nat, q: nat, stop: nat, overlap: int): (r: Option<nat>)
    requires start <= q < stop <= |paragraphs|
    ensures r.Some? ==> start <= r.value <= q
    decreases q - start
  {
    if SuffixLen(paragraphs, q, stop) >= overlap then Some(q)
    else if q == start then None
    else OverlapStart(paragraphs, start, q - 1, stop, overlap)
  }

  /** `OverlapStart` finds the last paragraph, at or below `q`, whose
      suffix covers `overlap` characters, and `None` exactly when there is
      none. */
  lemma {:induction false} OverlapStartSpec(paragraphs: seq<string>, start: nat, q: nat, stop: nat, overlap: int)
    requires start <= q < stop <= |paragraphs|
    ensures var r := OverlapStart(paragraphs, start, q, stop, overlap);
      && (r.Some? ==> SuffixLen(paragraphs, r.value, stop) >= overlap)
      && (r.Some? ==> forall j :: r.value < j <= q ==> SuffixLen(paragraphs, j, stop) < overlap)
      && (r.None? ==> forall j :: start <= j <= q ==> SuffixLen(paragraphs, j, stop) < overlap)
    decreases q - start
  {
    if SuffixLen(paragraphs, q, stop) < overlap && q > start {
      OverlapStartSpec(paragraphs, start, q - 1, stop, overlap);
    }
  }

  /** The converse of `OverlapStartSpec` when a paragraph qualifies: the
      last qualifying paragraph is the one found. */
  lemma {:induction false} OverlapStartAt(paragraphs: seq<string>, start: nat, q: nat, stop: nat, overlap: int, p: nat)
    requires start <= p <= q < stop <= |paragraphs|
    requires SuffixLen(paragraphs, p, stop) >= overlap
    requires forall j :: p < j <= q ==> SuffixLen(paragraphs, j, stop) < overlap
    ensures OverlapStart(paragraphs, start, q, stop, overlap) == Some(p)
    decreases q - start
  {
    if q > p {
      OverlapStartAt(paragraphs, start, q - 1, stop, overlap, p);
    }
  }

  /** The converse of `OverlapStartSpec` when no paragraph qualifies. */
  lemma {:induction false} OverlapStartNone(paragraphs: seq<string>, start: nat, q: nat, stop: nat, overlap: int)
    requires start <= q < stop <= |paragraphs|
    requires forall j :: start <= j <= q ==> SuffixLen(paragraphs, j, stop) < overlap
    ensures OverlapStart(paragraphs, start, q, stop, overlap) == None
    decreases q - start
  {
    if q > start {
      OverlapStartNone(paragraphs, start, q - 1, stop, overlap);
    }
  }

  /** Where the cursor goes after emitting the chunk `start .. stop - 1`
      whose text has `textLen` characters: back to the overlap paragraph
      when there is overlap to keep and stepping back stays strictly
      inside the chunk, otherwise to the first unconsumed paragraph.
      Either way strictly past `start` and at most `stop`. */
  function NextStart(paragraphs: seq<string>, start: nat, stop: nat, textLen: nat, size: int, overlap: int): (r: nat)
    requires start < stop <= |paragraphs|
    ensures start < r <= stop
  {
    if stop < |paragraphs| && overlap > 0 && textLen > size - overlap then
      match OverlapStart(paragraphs, start, stop - 1, stop, overlap)
      case Some(p) => if p < stop - 1 && p != start then p else stop
      case None => stop
    else
      stop
  }

  /** The record emitted, as the `k`-th chunk, for the paragraphs
      `i .. stop - 1`. */
  function MakeChunk(paragraphs: seq<string>, book: string, i: nat, stop: nat, k: nat): Chunk
    requires i < stop <= |paragraphs|
  {
    var text := Accumulate(paragraphs[i..stop]);
    Chunk(ChunkId(book, k), text, ChunkMeta(book, i, stop - 1, |text|))
  }

  /** The chunks the loop emits once its cursor is at `i` and it has
      emitted `k` chunks. */
  function ChunksFrom(paragraphs: seq<string>, size: int, overlap: int, book: string, i: nat, k: nat): seq<Chunk>
    requires i <= |paragraphs|
    decreases |paragraphs| - i
  {
    if i == |paragraphs| then []
    else
      var stop := Gather(paragraphs, i, i, size);
      var text := Accumulate(paragraphs[i..stop]);
      if text == "" then []
      else
        assert paragraphs[i..i] == [];
        [MakeChunk(paragraphs, book, i, stop, k)] + ChunksFrom(paragraphs, size, overlap, book, NextStart(paragraphs, i, stop, |text|, size, overlap), k + 1)
  }

  /** `chunk_paragraphs(paragraphs, size, overlap, book)`. */
  function Chunks(paragraphs: seq<string>, size: int, overlap: int, book: string): seq<Chunk> {
    ChunksFrom(paragraphs, size, overlap, book, 0, 0)
  }
}

=== FILE: chunk_properties.dfy ===
/**
  What the chunks emitted by `chunk_paragraphs` (src/chunk.py) satisfy,
  proved about the reference definition `ChunkModel.ChunksFrom`: ids and
  book, well-formed metadata, text that is whole paragraphs joined by blank
  lines, the size threshold, strictly advancing starts (hence termination
  with at most one chunk per paragraph), the overlap rule, and coverage.
 */
module ChunkProperties {
  import opened Strings
  import opened Paragraphs
  import opened ChunkModel

  // ---------------------------------------------------------------------
  // The accumulated text

  /** How many paragraphs at the front of `ps` are empty. */
  function LeadingEmpty(ps: seq<string>): (m: nat)
    ensures m <= |ps|
    ensures forall j :: 0 <= j < m ==> ps[j] == ""
    ensures m < |ps| ==> ps[m] != ""
  {
    if |ps| == 0 || ps[0] != "" then 0 else 1 + LeadingEmpty(ps[1..])
  }

  /** `LeadingEmpty` has one answer: the index of the first non-empty
      paragraph. */
  lemma LeadingEmptyAt(ps: seq<string>, m: nat)
    requires m <= |ps|
    requires forall j :: 0 <= j < m ==> ps[j] == ""
    requires m == |ps| || ps[m] != ""
    ensures LeadingEmpty(ps) == m
  {
    var m' := LeadingEmpty(ps);
    assert m' == m;
  }

  /** The accumulated text is empty exactly when every paragraph is. */
  lemma {:induction false} AccumulateEmpty(ps: seq<string>)
    ensures Accumulate(ps) == "" <==> forall j :: 0 <= j < |ps| ==> ps[j] == ""
    decreases |ps|
  {
    if |ps| > 0 {
      var init := ps[..|ps| - 1];
      AccumulateEmpty(init);
      assert forall j :: 0 <= j < |init| ==> init[j] == ps[j];
    }
  }

  /** `AccumulateIsJoin` when all paragraphs but the last are empty. */
  lemma AccumulateIsJoinAfterEmpty(ps: seq<string>)
    requires |ps| > 0
    requires forall j :: 0 <= j < |ps| - 1 ==> ps[j] == ""
    ensures Accumulate(ps) == Join(ps[LeadingEmpty(ps)..], ParagraphBreak)
  {
    var init, last := ps[..|ps| - 1], ps[|ps| - 1];
    AccumulateEmpty(init);
    assert Accumulate(init) == "";
    if last == "" {
      LeadingEmptyAt(ps, |ps|);
      assert ps[|ps|..] == [];
    } else {
      LeadingEmptyAt(ps, |ps| - 1);
      assert ps[|ps| - 1..] == [last];
    }
  }

  /** `AccumulateIsJoin` for the last paragraph, once the earlier ones
      contain a non-empty one. */
  lemma AccumulateIsJoinStep(ps: seq<string>)
    requires |ps| > 1
    requires LeadingEmpty(ps[..|ps| - 1]) < |ps| - 1
    requires Accumulate(ps[..|ps| - 1]) == Join(ps[..|ps| - 1][LeadingEmpty(ps[..|ps| - 1])..], ParagraphBreak)
    ensures Accumulate(ps) == Join(ps[LeadingEmpty(ps)..], ParagraphBreak)
  {
    var init, last := ps[..|ps| - 1], ps[|ps| - 1];
    var m := LeadingEmpty(init);
    AccumulateEmpty(init);
    assert init[m] != "";
    assert Accumulate(init) != "";
    forall j | 0 <= j < m ensures ps[j] == "" {
      assert ps[j] == init[j];
    }
    assert ps[m] == init[m];
    LeadingEmptyAt(ps, m);
    SuffixOfSnoc(ps, m);
    JoinSnoc(init[m..], last, ParagraphBreak);
  }

  /** A suffix of a non-empty sequence is the suffix of its front with the
      last element added. */
  lemma SuffixOfSnoc<T>(s: seq<T>, m: nat)
    requires m < |s|
    ensures s[m..] == s[..|s| - 1][m..] + [s[|s| - 1]]
  {
  }

  /** The text the accumulation builds is the blank-line join of the
      paragraphs after the leading empty ones: leading empty paragraphs
      leave no separator behind, later ones do. */
  lemma {:induction false} AccumulateIsJoin(ps: seq<string>)
    ensures Accumulate(ps) == Join(ps[LeadingEmpty(ps)..], ParagraphBreak)
    decreases |ps|
  {
    if |ps| > 0 {
      var init := ps[..|ps| - 1];
      if LeadingEmpty(init) == |init| {
        AccumulateIsJoinAfterEmpty(ps);
      } else {
        AccumulateIsJoin(init);
        AccumulateIsJoinStep(ps);
      }
    }
  }

  /** With no empty paragraphs, the accumulated text is exactly the
      blank-line join. */
  lemma AccumulateNonEmptyIsJoin(ps: seq<string>)
    requires forall j :: 0 <= j < |ps| ==> ps[j] != ""
    ensures Accumulate(ps) == Join(ps, ParagraphBreak)
  {
    AccumulateIsJoin(ps);
    LeadingEmptyAt(ps, 0);
    assert ps[0..] == ps;
  }

  // ---------------------------------------------------------------------
  // The overlap rule

  /** The one case in which the cursor steps back into the chunk
      `start .. stop - 1` just emitted: overlap is asked for, paragraphs
      remain, the text is longer than `size - overlap`, and the last
      paragraph `p` whose suffix covers `overlap` characters lies strictly
      inside the chunk. */
  ghost predicate StepsBackTo(paragraphs: seq<string>, start: nat, stop: nat, textLen: nat, size: int, overlap: int, p: nat)
    requires start < stop <= |paragraphs|
  {
    && overlap > 0
    && stop < |paragraphs|
    && textLen > size - overlap
    && start < p < stop - 1
    && SuffixLen(paragraphs, p, stop) >= overlap
    && forall j :: p < j < stop ==> SuffixLen(paragraphs, j, stop) < overlap
  }

  /** The next start is the first unconsumed paragraph unless the cursor
      steps back, and it steps back to `p` exactly when `StepsBackTo` holds
      of `p`. */
  lemma NextStartSpec(paragraphs: seq<string>, start: nat, stop: nat, textLen: nat, size: int, overlap: int)
    requires start < stop <= |paragraphs|
    ensures var r := NextStart(paragraphs, start, stop, textLen, size, overlap);
      r == stop || StepsBackTo(paragraphs, start, stop, textLen, size, overlap, r)
    ensures forall p: nat :: StepsBackTo(paragraphs, start, stop, textLen, size, overlap, p) ==>
      NextStart(paragraphs, start, stop, textLen, size, overlap) == p
  {
    OverlapStartSpec(paragraphs, start, stop - 1, stop, overlap);
    forall p: nat | StepsBackTo(paragraphs, start, stop, textLen, size, overlap, p)
      ensures NextStart(paragraphs, start, stop, textLen, size, overlap) == p
    {
      var o := OverlapStart(paragraphs, start, stop - 1, stop, overlap);
      assert o.Some?;
      assert o.value == p;
    }
  }

  /** A last paragraph that alone covers `overlap` characters is itself
      the overlap paragraph, and it is not strictly inside the chunk: no
      overlap is kept and the next chunk starts right after this one. */
  lemma LongLastParagraphNoOverlap(paragraphs: seq<string>, start: nat, stop: nat, textLen: nat, size: int, overlap: int)
    requires start < stop <= |paragraphs|
    requires |paragraphs[stop - 1]| >= overlap
    ensures NextStart(paragraphs, start, stop, textLen, size, overlap) == stop
  {
    assert paragraphs[stop - 1..stop] == [paragraphs[stop - 1]];
    assert SuffixLen(paragraphs, stop - 1, stop) >= overlap;
  }

  /** Three paragraphs of 50 characters with `size = 80` and
      `overlap = 20`: the first chunk takes paragraphs 0 and 1, and the
      second starts at paragraph 2, sharing nothing with the first. */
  lemma ThreeEqualParagraphsNoOverlap(a: string, b: string, c: string)
    requires |a| == 50 && |b| == 50 && |c| == 50
    requires a != "" && b != "" && c != ""
    ensures var cs := Chunks([a, b, c], 80, 20, "book");
      && |cs| == 2
      && cs[0].meta.paraIdxStart == 0 && cs[0].meta.paraIdxEnd == 1
      && cs[1].meta.paraIdxStart == 2 && cs[1].meta.paraIdxEnd == 2
  {
    var P := [a, b, c];
    assert P[0..0] == [] && P[0..1] == [a] && P[0..2] == [a, b] && P[0..2][..1] == [a] && [a][..0] == [];
    assert Accumulate(P[0..1]) == a;
    assert Accumulate(P[0..2]) == a + ParagraphBreak + b;
    assert Gather(P, 0, 2, 80) == 2;
    assert Gather(P, 0, 1, 80) == 2;
    assert Gather(P, 0, 0, 80) == 2;
    LongLastParagraphNoOverlap(P, 0, 2, 102, 80, 20);
    ChunksFromStep(P, 80, 20, "book", 0, 0);
    assert P[2..2] == [] && P[2..3] == [c] && [c][..0] == [];
    assert Accumulate(P[2..3]) == c;
    assert Gather(P, 2, 3, 80) == 3;
    assert Gather(P, 2, 2, 80) == 3;
    ChunksFromStep(P, 80, 20, "book", 2, 1);
    assert ChunksFrom(P, 80, 20, "book", 3, 2) == [];
  }

  // ---------------------------------------------------------------------
  // The emitted chunks

  /** Chunk `c` is what the loop emits as its `n`-th chunk when its cursor
      is at `c`'s first paragraph. */
  ghost predicate EmittedAt(paragraphs: seq<string>, size: int, book: string, c: Chunk, n: nat) {
    var s := c.meta.paraIdxStart;
    && s < |paragraphs|
    && s < Gather(paragraphs, s, s, size)
    && c == MakeChunk(paragraphs, book, s, Gather(paragraphs, s, s, size), n)
    && c.text != ""
  }

  /** Every chunk of `cs` starts at or after `i` and is what the loop
      builds from its own start, the `j`-th of them as chunk number
      `k + j`. */
  ghost predicate AllEmitted(paragraphs: seq<string>, size: int, book: string, cs: seq<Chunk>, i: nat, k: nat) {
    forall j :: 0 <= j < |cs| ==> i <= cs[j].meta.paraIdxStart && EmittedAt(paragraphs, size, book, cs[j], k + j)
  }

  /** One turn of the loop from cursor `i`: when it emits anything, it
      emits the chunk of the paragraphs `i .. stop - 1`, which has text, and
      then what it emits from `NextStart`. */
  lemma ChunksFromStep(paragraphs: seq<string>, size: int, overlap: int, book: string, i: nat, k: nat)
    requires i <= |paragraphs|
    requires ChunksFrom(paragraphs, size, overlap, book, i, k) != []
    ensures i < Gather(paragraphs, i, i, size)
    ensures Accumulate(paragraphs[i..Gather(paragraphs, i, i, size)]) != ""
    ensures ChunksFrom(paragraphs, size, overlap, book, i, k)
      == [MakeChunk(paragraphs, book, i, Gather(paragraphs, i, i, size), k)]
         + ChunksFrom(paragraphs, size, overlap, book,
                      NextStart(paragraphs, i, Gather(paragraphs, i, i, size),
                                |Accumulate(paragraphs[i..Gather(paragraphs, i, i, size)])|, size, overlap),
                      k + 1)
  {
    assert paragraphs[i..i] == [];
  }

  /** Putting an emitted chunk in front of a list of emitted chunks. */
  lemma AllEmittedCons(paragraphs: seq<string>, size: int, book: string, c: Chunk, rest: seq<Chunk>, i: nat, next: nat, k: nat)
    requires i <= c.meta.paraIdxStart && EmittedAt(paragraphs, size, book, c, k)
    requires i <= next && AllEmitted(paragraphs, size, book, rest, next, k + 1)
    ensures AllEmitted(paragraphs, size, book, [c] + rest, i, k)
  {
    var cs := [c] + rest;
    forall j | 0 <= j < |cs| ensures i <= cs[j].meta.paraIdxStart && EmittedAt(paragraphs, size, book, cs[j], k + j) {
      if j > 0 {
        assert cs[j] == rest[j - 1];
        assert EmittedAt(paragraphs, size, book, rest[j - 1], k + 1 + (j - 1));
        assert k + 1 + (j - 1) == k + j;
      }
    }
  }

  /** Every chunk emitted from cursor `i` after `k` earlier ones is what the
      loop builds from its own start. */
  lemma {:induction false} ChunksEmitted(paragraphs: seq<string>, size: int, overlap: int, book: string, i: nat, k: nat)
    requires i <= |paragraphs|
    ensures AllEmitted(paragraphs, size, book, ChunksFrom(paragraphs, size, overlap, book, i, k), i, k)
    decreases |paragraphs| - i
  {
    if ChunksFrom(paragraphs, size, overlap, book, i, k) != [] {
      ChunksFromStep(paragraphs, size, overlap, book, i, k);
      var stop := Gather(paragraphs, i, i, size);
      var text := Accumulate(paragraphs[i..stop]);
      var next := NextStart(paragraphs, i, stop, |text|, size, overlap);
      ChunksEmitted(paragraphs, size, overlap, book, next, k + 1);
      AllEmittedCons(paragraphs, size, book, MakeChunk(paragraphs, book, i, stop, k),
                     ChunksFrom(paragraphs, size, overlap, book, next, k + 1), i, next, k);
    }
  }

  /** At most one chunk per remaining paragraph: the loop terminates after
      at most `len(paragraphs)` chunks. */
  lemma {:induction false} ChunkCountBound(paragraphs: seq<string>, size: int, overlap: int, book: string, i: nat, k: nat)
    requires i <= |paragraphs|
    ensures |ChunksFrom(paragraphs, size, overlap, book, i, k)| <= |paragraphs| - i
    decreases |paragraphs| - i
  {
    if ChunksFrom(paragraphs, size, overlap, book, i, k) != [] {
      ChunksFromStep(paragraphs, size, overlap, book, i, k);
      var stop := Gather(paragraphs, i, i, size);
      var next := NextStart(paragraphs, i, stop, |Accumulate(paragraphs[i..stop])|, size, overlap);
      ChunkCountBound(paragraphs, size, overlap, book, next, k + 1);
    }
  }

  /** The `j`-th chunk of `cs` is `book_chunk_j` and carries `book`. */
  ghost predicate IdsAndBook(book: string, cs: seq<Chunk>) {
    forall j :: 0 <= j < |cs| ==> cs[j].id == ChunkId(book, j) && cs[j].meta.book == book
  }

  /** What an emitted chunk carries: its id and book, its shape and the
      size threshold. */
  lemma EmittedChunk(paragraphs: seq<string>, size: int, book: string, c: Chunk, n: nat)
    requires EmittedAt(paragraphs, size, book, c, n)
    ensures c.id == ChunkId(book, n) && c.meta.book == book
    ensures WellShaped(paragraphs, c)
    ensures MeetsSize(paragraphs, size, c)
  {
    GatherSpec(paragraphs, c.meta.paraIdxStart, c.meta.paraIdxStart, size);
    assert BelowSize(paragraphs, c.meta.paraIdxStart, c.meta.paraIdxEnd, size);
  }

  /** The chunks are numbered `book_chunk_0`, `book_chunk_1`, ... in order
      and all carry `book`. */
  lemma ChunkIdsAndBook(paragraphs: seq<string>, size: int, overlap: int, book: string)
    ensures IdsAndBook(book, Chunks(paragraphs, size, overlap, book))
  {
    var cs := Chunks(paragraphs, size, overlap, book);
    ChunksEmitted(paragraphs, size, overlap, book, 0, 0);
    forall j | 0 <= j < |cs| ensures cs[j].id == ChunkId(book, j) && cs[j].meta.book == book {
      EmittedChunk(paragraphs, size, book, cs[j], 0 + j);
    }
  }

  /** Different counters give different ids. */
  lemma ChunkIdInjective(book: string, a: nat, b: nat)
    requires ChunkId(book, a) == ChunkId(book, b)
    ensures a == b
  {
    var prefix := book + "_chunk_";
    assert ChunkId(book, a)[|prefix|..] == NatToString(a);
    assert ChunkId(book, b)[|prefix|..] == NatToString(b);
    NatToStringInjective(a, b);
  }

  /** No two chunks of `cs` share an id. */
  ghost predicate IdsDistinct(cs: seq<Chunk>) {
    forall j1, j2 :: 0 <= j1 < |cs| && 0 <= j2 < |cs| && j1 != j2 ==> cs[j1].id != cs[j2].id
  }

  /** No two chunks of one book share an id. */
  lemma ChunkIdsDistinct(paragraphs: seq<string>, size: int, overlap: int, book: string)
    ensures IdsDistinct(Chunks(paragraphs, size, overlap, book))
  {
    var cs := Chunks(paragraphs, size, overlap, book);
    ChunkIdsAndBook(paragraphs, size, overlap, book);
    forall j1, j2 | 0 <= j1 < |cs| && 0 <= j2 < |cs| && cs[j1].id == cs[j2].id
      ensures j1 == j2
    {
      ChunkIdInjective(book, j1, j2);
    }
  }

  /** Chunk `c` has non-empty text whose length is its `char_count`, a
      paragraph range `start <= end` inside the paragraphs, and text that is
      the accumulation of exactly those whole paragraphs. */
  ghost predicate WellShaped(paragraphs: seq<string>, c: Chunk) {
    && c.text != ""
    && c.meta.charCount == |c.text|
    && c.meta.paraIdxStart <= c.meta.paraIdxEnd < |paragraphs|
    && c.text == Accumulate(paragraphs[c.meta.paraIdxStart..c.meta.paraIdxEnd + 1])
  }

  /** Every chunk is well shaped. */
  lemma ChunkShape(paragraphs: seq<string>, size: int, overlap: int, book: string)
    ensures forall c :: c in Chunks(paragraphs, size, overlap, book) ==> WellShaped(paragraphs, c)
  {
    var cs := Chunks(paragraphs, size, overlap, book);
    ChunksEmitted(paragraphs, size, overlap, book, 0, 0);
    forall c | c in cs ensures WellShaped(paragraphs, c) {
      var j :| 0 <= j < |cs| && cs[j] == c;
      EmittedChunk(paragraphs, size, book, cs[j], 0 + j);
    }
  }

  /** When no paragraph is empty, a chunk's text is its paragraphs joined
      with blank lines. */
  lemma ChunkTextIsJoin(paragraphs: seq<string>, size: int, overlap: int, book: string)
    requires forall q :: 0 <= q < |paragraphs| ==> paragraphs[q] != ""
    ensures forall c :: c in Chunks(paragraphs, size, overlap, book) ==>
      && c.meta.paraIdxStart <= c.meta.paraIdxEnd < |paragraphs|
      && c.text == Join(paragraphs[c.meta.paraIdxStart..c.meta.paraIdxEnd + 1], ParagraphBreak)
  {
    var cs := Chunks(paragraphs, size, overlap, book);
    ChunkShape(paragraphs, size, overlap, book);
    forall c | c in cs
      ensures c.meta.paraIdxStart <= c.meta.paraIdxEnd < |paragraphs|
      ensures c.text == Join(paragraphs[c.meta.paraIdxStart..c.meta.paraIdxEnd + 1], ParagraphBreak)
    {
      assert WellShaped(paragraphs, c);
      var a, e := c.meta.paraIdxStart, c.meta.paraIdxEnd;
      var ps := paragraphs[a..e + 1];
      forall q | 0 <= q < |ps| ensures ps[q] != "" {
        assert ps[q] == paragraphs[a + q];
      }
      AccumulateNonEmptyIsJoin(ps);
    }
  }

  /** The size threshold: the chunk's paragraphs but its last accumulate to
      fewer than `size` characters, and the chunk reaches `size` unless it
      ends at the last paragraph. */
  ghost predicate MeetsSize(paragraphs: seq<string>, size: int, c: Chunk) {
    && c.meta.paraIdxStart <= c.meta.paraIdxEnd < |paragraphs|
    && |Accumulate(paragraphs[c.meta.paraIdxStart..c.meta.paraIdxEnd])| < size
    && (|c.text| >= size || c.meta.paraIdxEnd == |paragraphs| - 1)
  }

  /** Every chunk meets the size threshold. */
  lemma ChunkSizeThreshold(paragraphs: seq<string>, size: int, overlap: int, book: string)
    ensures forall c :: c in Chunks(paragraphs, size, overlap, book) ==> MeetsSize(paragraphs, size, c)
  {
    var cs := Chunks(paragraphs, size, overlap, book);
    ChunksEmitted(paragraphs, size, overlap, book, 0, 0);
    forall c | c in cs ensures MeetsSize(paragraphs, size, c) {
      var j :| 0 <= j < |cs| && cs[j] == c;
      EmittedChunk(paragraphs, size, book, cs[j], 0 + j);
    }
  }

  /** `d` is emitted right after `c`: it starts where `NextStart` puts the
      cursor once `c` is emitted. */
  ghost predicate Follows(paragraphs: seq<string>, size: int, overlap: int, c: Chunk, d: Chunk) {
    && c.meta.paraIdxStart <= c.meta.paraIdxEnd < |paragraphs|
    && d.meta.paraIdxStart
         == NextStart(paragraphs, c.meta.paraIdxStart, c.meta.paraIdxEnd + 1, |c.text|, size, overlap)
  }

  /** Each chunk of `cs` follows the one before it. */
  ghost predicate Chained(paragraphs: seq<string>, size: int, overlap: int, cs: seq<Chunk>) {
    forall j :: 0 <= j < |cs| - 1 ==> Follows(paragraphs, size, overlap, cs[j], cs[j + 1])
  }

  /** Each chunk emitted from cursor `i` starts where `NextStart` puts the
      cursor after the one before it. */
  lemma {:induction false} ChunksChain(paragraphs: seq<string>, size: int, overlap: int, book: string, i: nat, k: nat)
    requires i <= |paragraphs|
    ensures Chained(paragraphs, size, overlap, ChunksFrom(paragraphs, size, overlap, book, i, k))
    decreases |paragraphs| - i
  {
    if ChunksFrom(paragraphs, size, overlap, book, i, k) != [] {
      ChunksFromStep(paragraphs, size, overlap, book, i, k);
      var stop := Gather(paragraphs, i, i, size);
      var c := MakeChunk(paragraphs, book, i, stop, k);
      var next := NextStart(paragraphs, i, stop, |c.text|, size, overlap);
      var rest := ChunksFrom(paragraphs, size, overlap, book, next, k + 1);
      ChunksChain(paragraphs, size, overlap, book, next, k + 1);
      if rest != [] {
        ChunksFromStep(paragraphs, size, overlap, book, next, k + 1);
        FollowsMade(paragraphs, size, overlap, book, i, stop, k, rest[0]);
      }
      ChainedCons(paragraphs, size, overlap, c, rest);
    }
  }

  /** A chunk that starts where `NextStart` leaves the cursor after the
      chunk of the paragraphs `i .. stop - 1` follows that chunk. */
  lemma FollowsMade(paragraphs: seq<string>, size: int, overlap: int, book: string, i: nat, stop: nat, k: nat, d: Chunk)
    requires i < stop <= |paragraphs|
    requires d.meta.paraIdxStart
      == NextStart(paragraphs, i, stop, |Accumulate(paragraphs[i..stop])|, size, overlap)
    ensures Follows(paragraphs, size, overlap, MakeChunk(paragraphs, book, i, stop, k), d)
  {
    var c := MakeChunk(paragraphs, book, i, stop, k);
    assert c.meta.paraIdxStart == i && c.meta.paraIdxEnd + 1 == stop;
  }

  /** Putting a chunk in front of a chained list that starts where
      `NextStart` puts the cursor after it. */
  lemma ChainedCons(paragraphs: seq<string>, size: int, overlap: int, c: Chunk, rest: seq<Chunk>)
    requires c.meta.paraIdxStart <= c.meta.paraIdxEnd < |paragraphs|
    requires rest != [] ==> Follows(paragraphs, size, overlap, c, rest[0])
    requires Chained(paragraphs, size, overlap, rest)
    ensures Chained(paragraphs, size, overlap, [c] + rest)
  {
    var cs := [c] + rest;
    forall j | 0 <= j < |cs| - 1 ensures Follows(paragraphs, size, overlap, cs[j], cs[j + 1]) {
      if j > 0 {
        assert cs[j] == rest[j - 1] && cs[j + 1] == rest[j];
      } else {
        assert cs[1] == rest[0];
      }
    }
  }

  /** The next chunk starts strictly after `c`'s start and at most one past
      its end: right after `c` unless the overlap rule steps back into it,
      and then strictly inside it, never at its last paragraph. */
  ghost predicate Advances(paragraphs: seq<string>, size: int, overlap: int, c: Chunk, d: Chunk) {
    && c.meta.paraIdxStart <= c.meta.paraIdxEnd < |paragraphs|
    && c.meta.paraIdxStart < d.meta.paraIdxStart <= c.meta.paraIdxEnd + 1
    && (|| d.meta.paraIdxStart == c.meta.paraIdxEnd + 1
        || StepsBackTo(paragraphs, c.meta.paraIdxStart, c.meta.paraIdxEnd + 1, |c.text|, size, overlap, d.meta.paraIdxStart))
  }

  /** Consecutive chunks advance as the overlap rule says. */
  lemma ChunkStartsAdvance(paragraphs: seq<string>, size: int, overlap: int, book: string)
    ensures var cs := Chunks(paragraphs, size, overlap, book);
      forall j :: 0 <= j < |cs| - 1 ==> Advances(paragraphs, size, overlap, cs[j], cs[j + 1])
  {
    var cs := Chunks(paragraphs, size, overlap, book);
    ChunksChain(paragraphs, size, overlap, book, 0, 0);
    forall j | 0 <= j < |cs| - 1 ensures Advances(paragraphs, size, overlap, cs[j], cs[j + 1]) {
      assert Follows(paragraphs, size, overlap, cs[j], cs[j + 1]);
      NextStartSpec(paragraphs, cs[j].meta.paraIdxStart, cs[j].meta.paraIdxEnd + 1, |cs[j].text|, size, overlap);
    }
  }

  /** Chunk starts strictly increase along the whole list. */
  lemma ChunkStartsIncrease(paragraphs: seq<string>, size: int, overlap: int, book: string)
    ensures var cs := Chunks(paragraphs, size, overlap, book);
      forall j1, j2 :: 0 <= j1 < j2 < |cs| ==> cs[j1].meta.paraIdxStart < cs[j2].meta.paraIdxStart
  {
    var cs := Chunks(paragraphs, size, overlap, book);
    ChunksChain(paragraphs, size, overlap, book, 0, 0);
    forall j | 0 <= j < |cs| - 1 ensures cs[j].meta.paraIdxStart < cs[j + 1].meta.paraIdxStart {
      assert Follows(paragraphs, size, overlap, cs[j], cs[j + 1]);
    }
    forall j1, j2 | 0 <= j1 < j2 < |cs| ensures cs[j1].meta.paraIdxStart < cs[j2].meta.paraIdxStart {
      StartsIncreaseFrom(cs, j1, j2);
    }
  }

  /** Consecutive increase gives increase between any two positions. */
  lemma {:induction false} StartsIncreaseFrom(cs: seq<Chunk>, j1: nat, j2: nat)
    requires forall j :: 0 <= j < |cs| - 1 ==> cs[j].meta.paraIdxStart < cs[j + 1].meta.paraIdxStart
    requires j1 < j2 < |cs|
    ensures cs[j1].meta.paraIdxStart < cs[j2].meta.paraIdxStart
    decreases j2 - j1
  {
    if j1 + 1 < j2 {
      StartsIncreaseFrom(cs, j1 + 1, j2);
    }
  }

  /** Every paragraph from `i` on is empty. */
  ghost predicate OnlyEmptyFrom(paragraphs: seq<string>, i: nat) {
    forall q :: i <= q < |paragraphs| ==> paragraphs[q] == ""
  }

  /** No chunk at all exactly when the cursor is at the end, `size` is not
      positive, or every remaining paragraph is empty; otherwise the first
      chunk starts at the cursor. */
  lemma NoChunksIff(paragraphs: seq<string>, size: int, overlap: int, book: string, i: nat, k: nat)
    requires i <= |paragraphs|
    ensures ChunksFrom(paragraphs, size, overlap, book, i, k) == []
      <==> i == |paragraphs| || size < 1 || OnlyEmptyFrom(paragraphs, i)
    ensures ChunksFrom(paragraphs, size, overlap, book, i, k) != []
      ==> ChunksFrom(paragraphs, size, overlap, book, i, k)[0].meta.paraIdxStart == i
  {
    if i < |paragraphs| {
      var stop := Gather(paragraphs, i, i, size);
      var text := Accumulate(paragraphs[i..stop]);
      assert paragraphs[i..i] == [];
      if size >= 1 {
        GatherSpec(paragraphs, i, i, size);
        AccumulateEmpty(paragraphs[i..stop]);
        if text == "" {
          assert stop == |paragraphs|;
          forall q | i <= q < |paragraphs| ensures paragraphs[q] == "" {
            assert paragraphs[q] == paragraphs[i..stop][q - i];
          }
        } else {
          var j :| 0 <= j < stop - i && paragraphs[i..stop][j] != "";
          assert paragraphs[i + j] != "";
        }
      }
    }
  }

  /** Only empty paragraphs are left after the last chunk. */
  lemma {:induction false} TrailingParagraphsEmpty(paragraphs: seq<string>, size: int, overlap: int, book: string, i: nat, k: nat)
    requires i <= |paragraphs|
    ensures var cs := ChunksFrom(paragraphs, size, overlap, book, i, k);
      cs != [] ==> OnlyEmptyFrom(paragraphs, cs[|cs| - 1].meta.paraIdxEnd + 1)
    decreases |paragraphs| - i
  {
    var cs := ChunksFrom(paragraphs, size, overlap, book, i, k);
    if cs != [] {
      ChunksFromStep(paragraphs, size, overlap, book, i, k);
      var stop := Gather(paragraphs, i, i, size);
      var next := NextStart(paragraphs, i, stop, |Accumulate(paragraphs[i..stop])|, size, overlap);
      var rest := ChunksFrom(paragraphs, size, overlap, book, next, k + 1);
      TrailingParagraphsEmpty(paragraphs, size, overlap, book, next, k + 1);
      if rest != [] {
        assert cs[|cs| - 1] == rest[|rest| - 1];
      } else {
        NoChunksIff(paragraphs, size, overlap, book, next, k + 1);
        assert OnlyEmptyFrom(paragraphs, stop) by {
          forall q | stop <= q < |paragraphs| ensures paragraphs[q] == "" {
            if next < |paragraphs| && size >= 1 {
              assert OnlyEmptyFrom(paragraphs, next);
            }
          }
        }
      }
    }
  }

  /** With no empty paragraph and `size >= 1`, the chunks from a cursor
      inside the paragraphs are not empty and the last one ends at the last
      paragraph. */
  lemma {:induction false} LastChunkEnd(paragraphs: seq<string>, size: int, overlap: int, book: string, i: nat, k: nat)
    requires size >= 1
    requires forall j :: 0 <= j < |paragraphs| ==> paragraphs[j] != ""
    requires i < |paragraphs|
    ensures var cs := ChunksFrom(paragraphs, size, overlap, book, i, k);
      cs != [] && cs[|cs| - 1].meta.paraIdxEnd == |paragraphs| - 1
    decreases |paragraphs| - i
  {
    var cs := ChunksFrom(paragraphs, size, overlap, book, i, k);
    NoChunksIff(paragraphs, size, overlap, book, i, k);
    assert !OnlyEmptyFrom(paragraphs, i) by {
      assert paragraphs[i] != "";
    }
    ChunksFromStep(paragraphs, size, overlap, book, i, k);
    var stop := Gather(paragraphs, i, i, size);
    var next := NextStart(paragraphs, i, stop, |Accumulate(paragraphs[i..stop])|, size, overlap);
    var rest := ChunksFrom(paragraphs, size, overlap, book, next, k + 1);
    if next < |paragraphs| {
      LastChunkEnd(paragraphs, size, overlap, book, next, k + 1);
      assert cs[|cs| - 1] == rest[|rest| - 1];
    }
  }

  /** Paragraph `q` lies in the paragraph range of some chunk of `cs`. */
  ghost predicate Covered(cs: seq<Chunk>, q: nat) {
    exists j :: 0 <= j < |cs| && cs[j].meta.paraIdxStart <= q <= cs[j].meta.paraIdxEnd
  }

  /** Given `size >= 1` and no empty paragraph, every paragraph at or after
      the cursor lies in some chunk. */
  lemma {:induction false} CoveredFrom(paragraphs: seq<string>, size: int, overlap: int, book: string, i: nat, k: nat, q: nat)
    requires size >= 1
    requires forall j :: 0 <= j < |paragraphs| ==> paragraphs[j] != ""
    requires i <= q < |paragraphs|
    ensures Covered(ChunksFrom(paragraphs, size, overlap, book, i, k), q)
    decreases |paragraphs| - i
  {
    var cs := ChunksFrom(paragraphs, size, overlap, book, i, k);
    LastChunkEnd(paragraphs, size, overlap, book, i, k);
    ChunksFromStep(paragraphs, size, overlap, book, i, k);
    var stop := Gather(paragraphs, i, i, size);
    var next := NextStart(paragraphs, i, stop, |Accumulate(paragraphs[i..stop])|, size, overlap);
    var rest := ChunksFrom(paragraphs, size, overlap, book, next, k + 1);
    if q >= stop {
      CoveredFrom(paragraphs, size, overlap, book, next, k + 1, q);
      var j :| 0 <= j < |rest| && rest[j].meta.paraIdxStart <= q <= rest[j].meta.paraIdxEnd;
      assert cs[j + 1] == rest[j];
    } else {
      assert cs[0].meta.paraIdxStart <= q <= cs[0].meta.paraIdxEnd;
    }
  }

  /** Coverage: given `size >= 1` and no empty paragraph, the chunks of a
      non-empty paragraph list start at paragraph 0, end at the last
      paragraph, and every paragraph lies in some chunk. */
  lemma EveryParagraphCovered(paragraphs: seq<string>, size: int, overlap: int, book: string)
    requires size >= 1
    requires forall j :: 0 <= j < |paragraphs| ==> paragraphs[j] != ""
    ensures var cs := Chunks(paragraphs, size, overlap, book);
      && (|paragraphs| > 0 <==> cs != [])
      && (cs != [] ==> cs[0].meta.paraIdxStart == 0 && cs[|cs| - 1].meta.paraIdxEnd == |paragraphs| - 1)
      && forall q :: 0 <= q < |paragraphs| ==> Covered(cs, q)
  {
    var cs := Chunks(paragraphs, size, overlap, book);
    NoChunksIff(paragraphs, size, overlap, book, 0, 0);
    if |paragraphs| > 0 {
      LastChunkEnd(paragraphs, size, overlap, book, 0, 0);
    }
    forall q | 0 <= q < |paragraphs| ensures Covered(cs, q) {
      CoveredFrom(paragraphs, size, overlap, book, 0, 0, q);
    }
  }
}

=== FILE: chunker.dfy ===
/**
  `chunk_paragraphs` (src/chunk.py) as its cursor loop is written: the
  accumulation loop, the emission of a record, the backward walk that picks
  where the next chunk starts, the "stuck" guard and the fallback.  Each
  method is proved to compute what the reference definition in ChunkModel
  says, and the ghost flags record that the guard and the fallback never
  change the cursor.
 */
module Chunker {
  import opened ChunkModel
  import ChunkProperties

  /** The accumulation loop: from paragraph `start`, append whole
      paragraphs until the text has `size` characters or the paragraphs run
      out; `i` is where the cursor is left and `chunkParas` the indices
      taken. */
  method AccumulateChunk(paragraphs: seq<string>, start: nat, size: int)
    returns (chunkText: string, chunkParas: seq<nat>, i: nat)
    requires start < |paragraphs|
    ensures i == Gather(paragraphs, start, start, size)
    ensures chunkText == Accumulate(paragraphs[start..i])
    ensures |chunkParas| == i - start
    ensures forall j :: 0 <= j < |chunkParas| ==> chunkParas[j] == start + j
  {
    chunkParas := [];
    chunkText := "";
    i := start;
    while i < |paragraphs| && |chunkText| < size
      invariant start <= i <= |paragraphs|
      invariant chunkText == Accumulate(paragraphs[start..i])
      invariant Gather(paragraphs, start, i, size) == Gather(paragraphs, start, start, size)
      invariant |chunkParas| == i - start
      invariant forall j :: 0 <= j < |chunkParas| ==> chunkParas[j] == start + j
      decreases |paragraphs| - i
    {
      var para := paragraphs[i];
      assert paragraphs[start..i + 1][..i - start] == paragraphs[start..i];
      if chunkText != "" {
        chunkText := chunkText + "\n\n" + para;
      } else {
        chunkText := para;
      }
      chunkParas := chunkParas + [i];
      i := i + 1;
    }
  }

  /** The overlap step after emitting the chunk `paraStartIdx .. paraEndIdx`
      with the cursor at `i == paraEndIdx + 1`: walk back over the chunk's
      paragraphs until `overlap` characters are covered, and move the
      cursor there only if that stays strictly inside the chunk.  The
      result is the reference `NextStart`; the fallback that pushes the
      cursor past the chunk may be entered (when not even the whole chunk
      covers `overlap` characters) but never moves the cursor. */
  method StepBack(paragraphs: seq<string>, chunkParas: seq<nat>, chunkText: string,
                  paraStartIdx: nat, paraEndIdx: nat, lastI: int, i: nat, size: int, overlap: int)
    returns (next: int, ghost fallbackMoved: bool)
    requires paraStartIdx < i <= |paragraphs|
    requires |chunkParas| == i - paraStartIdx
    requires forall j :: 0 <= j < |chunkParas| ==> chunkParas[j] == paraStartIdx + j
    requires paraEndIdx == i - 1 && lastI == paraStartIdx
    ensures next == NextStart(paragraphs, paraStartIdx, i, |chunkText|, size, overlap)
    ensures !fallbackMoved
  {
    next := i;
    fallbackMoved := false;
    if i < |paragraphs| && overlap > 0 {
      var slideBack := size - overlap;
      if |chunkText| > slideBack {
        var charsFromEnd := 0;
        var paraIdxBack := |chunkParas| - 1;
        while paraIdxBack >= 0
          invariant -1 <= paraIdxBack < |chunkParas|
          invariant charsFromEnd == SuffixLen(paragraphs, paraStartIdx + paraIdxBack + 1, i)
          invariant forall j :: paraStartIdx + paraIdxBack < j < i ==> SuffixLen(paragraphs, j, i) < overlap
          invariant next == i
          decreases paraIdxBack
        {
          var paraIdx := chunkParas[paraIdxBack];
          var paraLen := |paragraphs[paraIdx]|;
          var separatorLen := if paraIdxBack < |chunkParas| - 1 then 2 else 0;
          SuffixLenStep(paragraphs, paraIdx, i);
          charsFromEnd := charsFromEnd + paraLen + separatorLen;
          if charsFromEnd >= overlap {
            var nextStartIdx := paraIdx;
            OverlapStartAt(paragraphs, paraStartIdx, i - 1, i, overlap, paraIdx);
            if nextStartIdx < paraEndIdx && nextStartIdx != lastI {
              next := nextStartIdx;
            }
            break;
          }
          paraIdxBack := paraIdxBack - 1;
        }
        if paraIdxBack < 0 {
          OverlapStartNone(paragraphs, paraStartIdx, i - 1, i, overlap);
          if next <= paraEndIdx {
            fallbackMoved := true;
            next := paraEndIdx + 1;
          }
        }
      }
    }
  }

  /** One pass of the cursor loop's body past the "stuck" guard, with the
      cursor at `i` and `k` chunks emitted: accumulate, and either stop
      (nothing was accumulated) or emit the `k`-th record and step back.
      This is exactly one unfolding of the reference `ChunksFrom`. */
  method EmitChunk(paragraphs: seq<string>, size: int, overlap: int, book: string, i: nat, k: nat)
    returns (done: bool, chunk: Chunk, next: nat, ghost fallbackMoved: bool)
    requires i < |paragraphs|
    ensures done <==> ChunksFrom(paragraphs, size, overlap, book, i, k) == []
    ensures !done ==> i < next <= |paragraphs|
    ensures !done ==> ChunksFrom(paragraphs, size, overlap, book, i, k)
                      == [chunk] + ChunksFrom(paragraphs, size, overlap, book, next, k + 1)
    ensures !done ==> chunk.id == ChunkId(book, k) && chunk.meta.book == book
    ensures !fallbackMoved
  {
    var paraStartIdx := i;
    var chunkText, chunkParas, j := AccumulateChunk(paragraphs, paraStartIdx, size);
    fallbackMoved := false;
    chunk := Chunk(ChunkId(book, k), chunkText, ChunkMeta(book, paraStartIdx, paraStartIdx, |chunkText|));
    next := j;
    done := chunkText == "";
    if !done {
      var paraEndIdx := if |chunkParas| > 0 then chunkParas[|chunkParas| - 1] else paraStartIdx;
      chunk := Chunk(ChunkId(book, k), chunkText, ChunkMeta(book, paraStartIdx, paraEndIdx, |chunkText|));
      assert chunk == MakeChunk(paragraphs, book, i, j, k);
      var n;
      n, fallbackMoved := StepBack(paragraphs, chunkParas, chunkText, paraStartIdx, paraEndIdx, paraStartIdx, j, size, overlap);
      next := n;
    }
  }

  /** `chunk_paragraphs(paragraphs, size, overlap, book)`: the cursor loop
      emits exactly the reference `Chunks`, at most one chunk per
      paragraph, the `k`-th with id `book_chunk_k` and book `book`; the
      "stuck" guard is never entered and the fallback never moves the
      cursor. */
  method ChunkParagraphs(paragraphs: seq<string>, size: int, overlap: int, book: string)
    returns (chunks: seq<Chunk>, ghost stuckFired: bool, ghost fallbackMoved: bool)
    ensures chunks == Chunks(paragraphs, size, overlap, book)
    ensures |chunks| <= |paragraphs|
    ensures forall j :: 0 <= j < |chunks| ==> chunks[j].id == ChunkId(book, j) && chunks[j].meta.book == book
    ensures !stuckFired && !fallbackMoved
  {
    chunks := [];
    var chunkId := 0;
    var i := 0;
    var lastI := -1;
    stuckFired, fallbackMoved := false, false;
    while i < |paragraphs|
      invariant 0 <= i <= |paragraphs|
      invariant lastI < i
      invariant chunkId == |chunks|
      invariant chunks + ChunksFrom(paragraphs, size, overlap, book, i, chunkId) == Chunks(paragraphs, size, overlap, book)
      invariant !stuckFired && !fallbackMoved
      decreases |paragraphs| - i
    {
      if i == lastI {
        stuckFired := true;
        i := i + 1;
        if i >= |paragraphs| {
          break;
        }
      }
      lastI := i;
      var done, chunk, next, moved := EmitChunk(paragraphs, size, overlap, book, i, chunkId);
      if done {
        assert chunks + [] == chunks;
        break;
      }
      assert chunks + [chunk] + ChunksFrom(paragraphs, size, overlap, book, next, chunkId + 1)
          == chunks + ([chunk] + ChunksFrom(paragraphs, size, overlap, book, next, chunkId + 1));
      chunks := chunks + [chunk];
      chunkId := chunkId + 1;
      i := next;
      fallbackMoved := fallbackMoved || moved;
    }
    assert ChunksFrom(paragraphs, size, overlap, book, i, chunkId) == [] by {
      if i < |paragraphs| {
        assert ChunksFrom(paragraphs, size, overlap, book, i, chunkId) == [];
      }
    }
    assert chunks + [] == chunks;
    ChunkProperties.ChunkCountBound(paragraphs, size, overlap, book, 0, 0);
    ChunkProperties.ChunkIdsAndBook(paragraphs, size, overlap, book);
    assert ChunkProperties.IdsAndBook(book, chunks);
  }
}

=== FILE: paragraphs.dfy ===
/**
  Paragraphization (`split_into_paragraphs` in src/chunk.py): the cleaned
  book text is cut at every blank line, each piece is stripped, and the
  pieces that strip to nothing are dropped.
 */
module Paragraphs {
  import opened Wrappers
  import opened Strings

  /** The blank line that separates paragraphs, and that the chunker puts
      back between the paragraphs of a chunk. */
  const ParagraphBreak: string := "\n\n"

  /** What paragraphization produces: non-empty, stripped, and free of
      blank lines. */
  predicate IsParagraph(p: string) {
    p != "" && IsStripped(p) && !Contains(p, ParagraphBreak)
  }

  /** What the comprehension keeps of one piece: its stripped form, or
      nothing if that is empty. */
  function KeepOne(q: string): (kept: seq<string>)
    ensures |kept| <= 1
  {
    var t := Strip(q);
    if t != "" then [t] else []
  }

  /** The list comprehension `[p.strip() for p in pieces if len(p.strip()) > 0]`. */
  function KeepStripped(pieces: seq<string>): (ps: seq<string>)
    ensures |ps| <= |pieces|
  {
    if |pieces| == 0 then [] else KeepOne(pieces[0]) + KeepStripped(pieces[1..])
  }

  /** Every kept string is the non-empty stripped form of some piece. */
  lemma {:induction false} KeepStrippedSound(pieces: seq<string>, p: string)
    requires p in KeepStripped(pieces)
    ensures p != "" && IsStripped(p)
    ensures exists q :: q in pieces && Strip(q) == p
    decreases |pieces|
  {
    var t := Strip(pieces[0]);
    if t != "" && p == t {
      assert pieces[0] in pieces;
    } else {
      KeepStrippedSound(pieces[1..], p);
      var q :| q in pieces[1..] && Strip(q) == p;
      assert q in pieces;
    }
  }

  /** Every piece that does not strip to nothing is kept. */
  lemma {:induction false} KeepStrippedComplete(pieces: seq<string>, q: string)
    requires q in pieces && Strip(q) != ""
    ensures Strip(q) in KeepStripped(pieces)
    decreases |pieces|
  {
    if q != pieces[0] {
      assert q in pieces[1..];
      KeepStrippedComplete(pieces[1..], q);
    }
  }

  /** The comprehension over one piece keeps its stripped form, or nothing
      if it strips to nothing. */
  lemma KeepStrippedSingle(q: string)
    ensures KeepStripped([q]) == if Strip(q) != "" then [Strip(q)] else []
  {
    assert [q][1..] == [];
    assert KeepStripped([q]) == KeepOne(q) + [];
  }

  /** The comprehension works piece by piece, in order: over `a + b` it is
      the comprehension over `a` followed by the one over `b`.  With
      `KeepStrippedSingle` this fixes the result, its order and how often
      each string appears. */
  lemma {:induction false} KeepStrippedAppend(a: seq<string>, b: seq<string>)
    ensures KeepStripped(a + b) == KeepStripped(a) + KeepStripped(b)
    decreases |a|
  {
    if |a| == 0 {
      assert a + b == b;
    } else {
      assert (a + b)[0] == a[0] && (a + b)[1..] == a[1..] + b;
      KeepStrippedAppend(a[1..], b);
      assert KeepOne(a[0]) + (KeepStripped(a[1..]) + KeepStripped(b))
          == (KeepOne(a[0]) + KeepStripped(a[1..])) + KeepStripped(b);
    }
  }

  /** `split_into_paragraphs(cleaned)`: every result is a paragraph, every
      result is the stripped form of a blank-line-separated piece of the
      text, and every such piece with non-whitespace content appears. */
  function SplitIntoParagraphs(cleaned: string): (ps: seq<string>)
    ensures forall p :: p in ps ==> IsParagraph(p)
    ensures forall p :: p in ps ==> exists q :: q in Split(cleaned, ParagraphBreak) && Strip(q) == p
    ensures forall q :: q in Split(cleaned, ParagraphBreak) && !AllWhitespace(q) ==> Strip(q) in ps
  {
    var pieces := Split(cleaned, ParagraphBreak);
    var ps := KeepStripped(pieces);
    forall p | p in ps ensures IsParagraph(p) && exists q :: q in pieces && Strip(q) == p {
      KeepStrippedSound(pieces, p);
      var q :| q in pieces && Strip(q) == p;
      StripNotContains(q, ParagraphBreak);
    }
    forall q | q in pieces && !AllWhitespace(q) ensures Strip(q) in ps {
      KeepStrippedComplete(pieces, q);
    }
    ps
  }

  /** A text without a blank line is one paragraph once stripped, or none
      if it is all whitespace. */
  lemma SplitIntoParagraphsNoBreak(cleaned: string)
    requires !Contains(cleaned, ParagraphBreak)
    ensures SplitIntoParagraphs(cleaned) == if Strip(cleaned) != "" then [Strip(cleaned)] else []
  {
    match Find(cleaned, ParagraphBreak, 0)
    case None =>
      KeepStrippedSingle(cleaned);
    case Some(k) =>
      assert false;
  }

  /** Paragraphization works left to right: when `x` holds no blank line,
      not even one that runs into the one after it, the paragraphs of
      `x + "\n\n" + y` are those of `x` followed by those of `y`.  With
      `SplitIntoParagraphsNoBreak` this fixes the result for every text,
      in order and with multiplicity. */
  lemma SplitIntoParagraphsCons(x: string, y: string)
    requires !Contains(x + "\n", ParagraphBreak)
    ensures SplitIntoParagraphs(x + ParagraphBreak + y) == SplitIntoParagraphs(x) + SplitIntoParagraphs(y)
  {
    assert ParagraphBreak[..|ParagraphBreak| - 1] == "\n";
    SplitCons(x, ParagraphBreak, y);
    KeepStrippedAppend([x], Split(y, ParagraphBreak));
    InfixNotContains(x + "\n", 0, |x|, ParagraphBreak);
    assert (x + "\n")[0..|x|] == x;
    SplitIntoParagraphsNoBreak(x);
    KeepStrippedSingle(x);
  }

  /** No blank line starts inside a paragraph `p0`, whatever follows it. */
  lemma NoBreakInParagraph(p0: string, rest: string, j: nat)
    requires IsParagraph(p0) && j < |p0|
    ensures !OccursAt(p0 + rest, ParagraphBreak, j)
  {
    var s := p0 + rest;
    if j + 2 <= |p0| {
      assert s[j..j + 2] == p0[j..j + 2];
      if OccursAt(s, ParagraphBreak, j) {
        assert OccursAt(p0, ParagraphBreak, j);
      }
    } else {
      assert s[j] == p0[|p0| - 1];
      assert !IsWhitespace(s[j]);
    }
  }

  /** The first blank line in `p0 + "\n\n" + rest` is the one after `p0`
      when `p0` is a paragraph. */
  lemma FindAfterParagraph(p0: string, rest: string)
    requires IsParagraph(p0)
    ensures Find(p0 + ParagraphBreak + rest, ParagraphBreak, 0) == Some(|p0|)
  {
    var s := p0 + ParagraphBreak + rest;
    assert s == p0 + (ParagraphBreak + rest);
    assert s[|p0|..|p0| + 2] == ParagraphBreak;
    assert OccursAt(s, ParagraphBreak, |p0|);
    forall j | 0 <= j < |p0| ensures !OccursAt(s, ParagraphBreak, j) {
      NoBreakInParagraph(p0, ParagraphBreak + rest, j);
    }
  }

  /** Splitting the blank-line join of paragraphs gives the paragraphs back. */
  lemma {:induction false} SplitJoinParagraphs(ps: seq<string>)
    requires |ps| >= 1
    requires forall p :: p in ps ==> IsParagraph(p)
    ensures Split(Join(ps, ParagraphBreak), ParagraphBreak) == ps
    decreases |ps|
  {
    if |ps| == 1 {
      var s := ps[0];
      assert IsParagraph(s) by { assert ps[0] in ps; }
      match Find(s, ParagraphBreak, 0)
      case None =>
      case Some(k) =>
        assert false;
    } else {
      var rest := Join(ps[1..], ParagraphBreak);
      FindAfterParagraph(ps[0], rest);
      var s := ps[0] + ParagraphBreak + rest;
      assert s[..|ps[0]|] == ps[0];
      assert s[|ps[0]| + 2..] == rest;
      SplitJoinParagraphs(ps[1..]);
      assert ps == [ps[0]] + ps[1..];
    }
  }

  /** A paragraph is its own stripped form. */
  lemma StripParagraph(p: string)
    requires IsParagraph(p)
    ensures Strip(p) == p
  {
    assert [] + p + [] == p;
    StripUnique([], p, []);
  }

  /** A single paragraph is paragraphized to itself. */
  lemma OneParagraph(p: string)
    requires IsParagraph(p)
    ensures SplitIntoParagraphs(p) == [p]
  {
    ParagraphsRoundTrip([p]);
  }

  /** A paragraph holds no blank line, even with a newline after it. */
  lemma ParagraphThenNewline(p: string)
    requires IsParagraph(p)
    ensures !Contains(p + "\n", ParagraphBreak)
  {
    forall j | 0 <= j <= |p| + 1 ensures !OccursAt(p + "\n", ParagraphBreak, j) {
      if j < |p| {
        NoBreakInParagraph(p, "\n", j);
      }
    }
  }

  /** A blank line before a paragraph leaves an empty piece, which is
      dropped. */
  lemma BreakThenParagraph(q: string)
    requires IsParagraph(q)
    ensures SplitIntoParagraphs(ParagraphBreak + q) == [q]
  {
    assert !OccursAt("\n", ParagraphBreak, 0);
    assert !Contains("" + "\n", ParagraphBreak);
    SplitIntoParagraphsCons("", q);
    assert "" + ParagraphBreak + q == ParagraphBreak + q;
    EmptyTextHasNoParagraphs();
    OneParagraph(q);
  }

  /** A run of four newlines between two paragraphs is one cut followed by
      a piece that strips to nothing: the two paragraphs come out, once
      each, in text order. */
  lemma DoubleBlankLineBetween(p: string, q: string)
    requires IsParagraph(p) && IsParagraph(q)
    ensures SplitIntoParagraphs(p + ParagraphBreak + ParagraphBreak + q) == [p, q]
  {
    ParagraphThenNewline(p);
    SplitIntoParagraphsCons(p, ParagraphBreak + q);
    OneParagraph(p);
    BreakThenParagraph(q);
    Regroup(p, ParagraphBreak, ParagraphBreak, q);
  }

  /** Regrouping a concatenation of four sequences. */
  lemma Regroup<T>(a: seq<T>, b: seq<T>, c: seq<T>, d: seq<T>)
    ensures a + b + c + d == a + b + (c + d)
  {
  }

  /** Stripping and filtering paragraphs leaves them as they are. */
  lemma {:induction false} KeepStrippedOfParagraphs(ps: seq<string>)
    requires forall p :: p in ps ==> IsParagraph(p)
    ensures KeepStripped(ps) == ps
    decreases |ps|
  {
    if |ps| > 0 {
      assert ps[0] in ps;
      StripParagraph(ps[0]);
      forall p | p in ps[1..] ensures IsParagraph(p) {
        assert p in ps;
      }
      KeepStrippedOfParagraphs(ps[1..]);
      assert ps == [ps[0]] + ps[1..];
    }
  }

  /** The empty text has no paragraphs. */
  lemma EmptyTextHasNoParagraphs()
    ensures SplitIntoParagraphs("") == []
  {
    assert Find("", ParagraphBreak, 0) == None;
    assert Split("", ParagraphBreak) == [""];
    assert Strip("") == "";
  }

  /** Paragraphization undoes the blank-line join: no paragraph is lost,
      merged, split, reordered or altered. */
  lemma ParagraphsRoundTrip(ps: seq<string>)
    requires forall p :: p in ps ==> IsParagraph(p)
    ensures SplitIntoParagraphs(Join(ps, ParagraphBreak)) == ps
  {
    if |ps| == 0 {
      EmptyTextHasNoParagraphs();
    } else {
      SplitJoinParagraphs(ps);
      KeepStrippedOfParagraphs(ps);
      assert SplitIntoParagraphs(Join(ps, ParagraphBreak)) == KeepStripped(ps);
    }
  }
}

=== FILE: strings.dfy ===
/**
  The Python string primitives the chunker relies on, written out over
  `seq<char>`: `str.isspace`/`str.strip`, `str.split(sep)`, `sep.join(parts)`
  and the decimal rendering of an `int` inside an f-string.
 */
module Strings {
  import opened Wrappers

  /** The characters for which Python's `str.isspace()` holds: the ASCII
      whitespace and separator controls, NEL, NBSP and the Unicode space
      and line/paragraph separators. */
  predicate IsWhitespace(c: char) {
    || c == ' ' || c == '\t' || c == '\n' || c == '\r' || c == '\U{B}' || c == '\U{C}'
    || c == '\U{1C}' || c == '\U{1D}' || c == '\U{1E}' || c == '\U{1F}'
    || c == '\U{85}' || c == '\U{A0}' || c == '\U{1680}'
    || ('\U{2000}' <= c <= '\U{200A}')
    || c == '\U{2028}' || c == '\U{2029}' || c == '\U{202F}' || c == '\U{205F}' || c == '\U{3000}'
  }

  predicate AllWhitespace(s: string) {
    forall i :: 0 <= i < |s| ==> IsWhitespace(s[i])
  }

  /** A string `strip()` leaves unchanged: empty, or neither end is whitespace. */
  predicate IsStripped(s: string) {
    s == [] || (!IsWhitespace(s[0]) && !IsWhitespace(s[|s| - 1]))
  }

  /** The first index at or after `i` whose character is not whitespace,
      or `|s|` if there is none: where `strip()` starts its result. */
  function SkipSpace(s: string, i: nat): (j: nat)
    requires i <= |s|
    ensures i <= j <= |s|
    ensures forall k :: i <= k < j ==> IsWhitespace(s[k])
    ensures j < |s| ==> !IsWhitespace(s[j])
    decreases |s| - i
  {
    if i < |s| && IsWhitespace(s[i]) then SkipSpace(s, i + 1) else i
  }

  /** Scanning back from `j` but not below `a`: the index just past the
      last character that is not whitespace, or `a` if there is none; where
      `strip()` ends its result. */
  function SkipSpaceBack(s: string, a: nat, j: nat): (b: nat)
    requires a <= j <= |s|
    ensures a <= b <= j
    ensures forall k :: b <= k < j ==> IsWhitespace(s[k])
    ensures a < b ==> !IsWhitespace(s[b - 1])
    decreases j
  {
    if a < j && IsWhitespace(s[j - 1]) then SkipSpaceBack(s, a, j - 1) else j
  }

  /** `s.strip()`: leading and trailing whitespace removed.  The result is
      stripped, no longer than `s`, and empty exactly when `s` is all
      whitespace. */
  function Strip(s: string): (r: string)
    ensures IsStripped(r)
    ensures |r| <= |s|
    ensures r == [] <==> AllWhitespace(s)
  {
    var a := SkipSpace(s, 0);
    var b := SkipSpaceBack(s, a, |s|);
    var r := s[a..b];
    assert r != [] ==> r[0] == s[a] && r[|r| - 1] == s[b - 1];
    r
  }

  /** `SkipSpace` stops at the first character that is not whitespace. */
  lemma {:induction false} SkipSpaceAt(s: string, i: nat, j: nat)
    requires i <= j <= |s|
    requires forall k :: i <= k < j ==> IsWhitespace(s[k])
    requires j < |s| ==> !IsWhitespace(s[j])
    ensures SkipSpace(s, i) == j
    decreases j - i
  {
    if i < j {
      SkipSpaceAt(s, i + 1, j);
    }
  }

  /** `SkipSpaceBack` stops just past the last character that is not
      whitespace. */
  lemma {:induction false} SkipSpaceBackAt(s: string, a: nat, b: nat, j: nat)
    requires a <= b <= j <= |s|
    requires forall k :: b <= k < j ==> IsWhitespace(s[k])
    requires a < b ==> !IsWhitespace(s[b - 1])
    ensures SkipSpaceBack(s, a, j) == b
    decreases j - b
  {
    if b < j {
      SkipSpaceBackAt(s, a, b, j - 1);
    }
  }

  /** `strip()` has exactly one answer: whatever stripped core is wrapped in
      whitespace on both sides is what `strip()` returns. */
  lemma StripUnique(pre: string, core: string, post: string)
    requires AllWhitespace(pre) && AllWhitespace(post)
    requires IsStripped(core)
    ensures Strip(pre + core + post) == core
  {
    var s := pre + core + post;
    var a, b := |pre|, |pre| + |core|;
    forall k | 0 <= k < |pre| ensures IsWhitespace(s[k]) {
      assert s[k] == pre[k];
    }
    forall k | b <= k < |s| ensures IsWhitespace(s[k]) {
      assert s[k] == post[k - b];
    }
    if core == [] {
      SkipSpaceAt(s, 0, |s|);
      SkipSpaceBackAt(s, |s|, |s|, |s|);
    } else {
      assert s[a] == core[0] && s[b - 1] == core[|core| - 1];
      SkipSpaceAt(s, 0, a);
      SkipSpaceBackAt(s, a, b, |s|);
      assert s[a..b] == core;
    }
  }

  /** Stripping twice is stripping once. */
  lemma StripIdempotent(s: string)
    ensures Strip(Strip(s)) == Strip(s)
  {
    var r := Strip(s);
    assert [] + r + [] == r;
    StripUnique([], r, []);
  }

  /** `sep` occurs in `s` starting at index `k`. */
  predicate OccursAt(s: string, sep: string, k: int) {
    0 <= k && k + |sep| <= |s| && s[k..k + |sep|] == sep
  }

  predicate Contains(s: string, sep: string) {
    exists k :: 0 <= k <= |s| && OccursAt(s, sep, k)
  }

  /** `s.find(sep, from)`: the leftmost occurrence of `sep` at or after `from`. */
  function Find(s: string, sep: string, from: nat): (r: Option<nat>)
    requires |sep| > 0
    ensures r.Some? ==> from <= r.value && OccursAt(s, sep, r.value)
    ensures r.Some? ==> forall k :: from <= k < r.value ==> !OccursAt(s, sep, k)
    ensures r.None? ==> forall k :: from <= k ==> !OccursAt(s, sep, k)
    decreases |s| - from
  {
    if from + |sep| > |s| then None
    else if s[from..from + |sep|] == sep then Some(from)
    else Find(s, sep, from + 1)
  }

  /** An occurrence inside an infix of `s` is an occurrence in `s`. */
  lemma OccursInInfix(s: string, a: nat, b: nat, sep: string, j: int)
    requires a <= b <= |s|
    requires OccursAt(s[a..b], sep, j)
    ensures OccursAt(s, sep, a + j)
  {
    forall m | 0 <= m < |sep| ensures s[a + j..a + j + |sep|][m] == sep[m] {
      assert s[a..b][j..j + |sep|][m] == sep[m];
    }
    assert s[a + j..a + j + |sep|] == sep;
  }

  /** An infix of a string free of `sep` is free of `sep`. */
  lemma InfixNotContains(s: string, a: nat, b: nat, sep: string)
    requires a <= b <= |s|
    requires !Contains(s, sep)
    ensures !Contains(s[a..b], sep)
  {
    if Contains(s[a..b], sep) {
      var j :| OccursAt(s[a..b], sep, j);
      OccursInInfix(s, a, b, sep, j);
    }
  }

  /** Stripping cannot create an occurrence of `sep`. */
  lemma StripNotContains(s: string, sep: string)
    requires !Contains(s, sep)
    ensures !Contains(Strip(s), sep)
  {
    var a := SkipSpace(s, 0);
    InfixNotContains(s, a, SkipSpaceBack(s, a, |s|), sep);
  }

  /** `s.split(sep)` for a non-empty `sep`: cut at every leftmost,
      non-overlapping occurrence; always at least one part, and no part
      contains `sep`. */
  function Split(s: string, sep: string): (parts: seq<string>)
    requires |sep| > 0
    ensures |parts| >= 1
    ensures forall p :: p in parts ==> !Contains(p, sep)
    decreases |s|
  {
    match Find(s, sep, 0)
    case None => [s]
    case Some(k) =>
      assert !Contains(s[..k], sep) by {
        if Contains(s[..k], sep) {
          var j :| OccursAt(s[..k], sep, j);
          OccursInInfix(s, 0, k, sep, j);
        }
      }
      [s[..k]] + Split(s[k + |sep|..], sep)
  }

  /** Every cut of `parts` is leftmost: no occurrence of `sep` starts inside
      a part, not even one that would run into the separator after it. */
  predicate LeftmostCuts(parts: seq<string>, sep: string)
    requires |sep| > 0
  {
    forall j :: 0 <= j < |parts| - 1 ==> !Contains(parts[j] + sep[..|sep| - 1], sep)
  }

  /** A slice inside the front part of a concatenation is a slice of that part. */
  lemma PrefixSlice<T>(a: seq<T>, b: seq<T>, i: nat, j: nat)
    requires i <= j <= |a|
    ensures (a + b)[i..j] == a[i..j]
  {
  }

  /** `Find` returns the occurrence at `k` when none starts earlier. */
  lemma {:induction false} FindAt(s: string, sep: string, from: nat, k: nat)
    requires |sep| > 0 && from <= k
    requires OccursAt(s, sep, k)
    requires forall m :: from <= m < k ==> !OccursAt(s, sep, m)
    ensures Find(s, sep, from) == Some(k)
    decreases k - from
  {
    if from < k {
      FindAt(s, sep, from + 1, k);
    }
  }

  /** The first part of `p0 + sep + rest` holds no occurrence of `sep`, not
      even one that runs into the separator, exactly when `Find` stops right
      after `p0`. */
  lemma FindAfterPart(p0: string, sep: string, rest: string)
    requires |sep| > 0
    requires !Contains(p0 + sep[..|sep| - 1], sep)
    ensures Find(p0 + sep + rest, sep, 0) == Some(|p0|)
  {
    var s := p0 + sep + rest;
    var t := p0 + sep[..|sep| - 1];
    assert s[|p0|..|p0| + |sep|] == sep;
    assert sep == sep[..|sep| - 1] + [sep[|sep| - 1]];
    assert s == t + ([sep[|sep| - 1]] + rest);
    forall m | 0 <= m < |p0| ensures !OccursAt(s, sep, m) {
      if OccursAt(s, sep, m) {
        PrefixSlice(t, [sep[|sep| - 1]] + rest, m, m + |sep|);
        assert OccursAt(t, sep, m);
      }
    }
    FindAt(s, sep, 0, |p0|);
  }

  /** `s.split(sep)` cuts at leftmost occurrences. */
  lemma {:induction false} SplitLeftmost(s: string, sep: string)
    requires |sep| > 0
    ensures LeftmostCuts(Split(s, sep), sep)
    decreases |s|
  {
    match Find(s, sep, 0)
    case None =>
    case Some(k) =>
      var rest := Split(s[k + |sep|..], sep);
      SplitLeftmost(s[k + |sep|..], sep);
      var parts := [s[..k]] + rest;
      assert Split(s, sep) == parts;
      assert !Contains(s[..k] + sep[..|sep| - 1], sep) by {
        var t := s[..k] + sep[..|sep| - 1];
        assert t == s[..k + |sep| - 1];
        if Contains(t, sep) {
          var m :| 0 <= m <= |t| && OccursAt(t, sep, m);
          OccursInInfix(s, 0, k + |sep| - 1, sep, m);
        }
      }
      forall j | 1 <= j < |parts| - 1 ensures !Contains(parts[j] + sep[..|sep| - 1], sep) {
        assert parts[j] == rest[j - 1];
      }
  }

  /** A part holding no leftmost occurrence of `sep` is split off first. */
  lemma SplitCons(p0: string, sep: string, rest: string)
    requires |sep| > 0
    requires !Contains(p0 + sep[..|sep| - 1], sep)
    ensures Split(p0 + sep + rest, sep) == [p0] + Split(rest, sep)
  {
    var s := p0 + sep + rest;
    FindAfterPart(p0, sep, rest);
    assert s[..|p0|] == p0;
    assert s[|p0| + |sep|..] == rest;
  }

  /** `split` has exactly one answer: parts free of `sep`, cut leftmost,
      that join back to `s` are `s.split(sep)`. */
  lemma {:induction false} SplitUnique(s: string, sep: string, parts: seq<string>)
    requires |sep| > 0 && |parts| >= 1
    requires Join(parts, sep) == s
    requires forall p :: p in parts ==> !Contains(p, sep)
    requires LeftmostCuts(parts, sep)
    ensures Split(s, sep) == parts
    decreases |parts|
  {
    if |parts| == 1 {
      assert !Contains(s, sep) by { assert parts[0] in parts; }
      match Find(s, sep, 0)
      case None =>
      case Some(k) =>
        assert false;
    } else {
      var tail := parts[1..];
      forall p | p in tail ensures !Contains(p, sep) {
        assert p in parts;
      }
      forall j | 0 <= j < |tail| - 1 ensures !Contains(tail[j] + sep[..|sep| - 1], sep) {
        assert tail[j] == parts[j + 1];
      }
      SplitUnique(Join(tail, sep), sep, tail);
      SplitCons(parts[0], sep, Join(tail, sep));
      assert parts == [parts[0]] + tail;
    }
  }

  /** `sep.join(parts)`. */
  function Join(parts: seq<string>, sep: string): string
  {
    if |parts| == 0 then ""
    else if |parts| == 1 then parts[0]
    else parts[0] + sep + Join(parts[1..], sep)
  }

  /** Joining the parts of a split gives back the string. */
  lemma {:induction false} JoinSplit(s: string, sep: string)
    requires |sep| > 0
    ensures Join(Split(s, sep), sep) == s
    decreases |s|
  {
    match Find(s, sep, 0)
    case None =>
    case Some(k) =>
      var rest := Split(s[k + |sep|..], sep);
      JoinSplit(s[k + |sep|..], sep);
      assert Split(s, sep) == [s[..k]] + rest;
      assert (Split(s, sep))[1..] == rest;
      assert s == s[..k] + sep + s[k + |sep|..];
  }

  /** Joining one more part appends the separator and the part. */
  lemma {:induction false} JoinSnoc(parts: seq<string>, p: string, sep: string)
    requires |parts| >= 1
    ensures Join(parts + [p], sep) == Join(parts, sep) + sep + p
    decreases |parts|
  {
    if |parts| > 1 {
      assert (parts + [p])[1..] == parts[1..] + [p];
      JoinSnoc(parts[1..], p, sep);
    }
  }

  /** The decimal digit character of `d`. */
  function DigitChar(d: nat): (c: char)
    requires d < 10
    ensures '0' <= c <= '9'
  {
    ('0' as int + d) as char
  }

  predicate IsDigits(s: string) {
    forall i :: 0 <= i < |s| ==> '0' <= s[i] <= '9'
  }

  /** `str(n)` for a non-negative `n`: decimal digits, no leading zero. */
  function NatToString(n: nat): (s: string)
    ensures |s| >= 1 && IsDigits(s)
    ensures s[0] == '0' ==> n == 0
    decreases n
  {
    if n < 10 then [DigitChar(n)] else NatToString(n / 10) + [DigitChar(n % 10)]
  }

  /** `int(s)` for a string of decimal digits. */
  function ParseDecimal(s: string): nat
    requires IsDigits(s)
  {
    if |s| == 0 then 0
    else 10 * ParseDecimal(s[..|s| - 1]) + (s[|s| - 1] as int - '0' as int)
  }

  /** Parsing the rendering of `n` gives `n` back. */
  lemma {:induction false} ParseNatToString(n: nat)
    ensures ParseDecimal(NatToString(n)) == n
    decreases n
  {
    var s := NatToString(n);
    if n >= 10 {
      ParseNatToString(n / 10);
      assert s[..|s| - 1] == NatToString(n / 10);
    }
  }

  /** Distinct numbers render to distinct strings. */
  lemma NatToStringInjective(a: nat, b: nat)
    requires NatToString(a) == NatToString(b)
    ensures a == b
  {
    ParseNatToString(a);
    ParseNatToString(b);
  }
}

=== FILE: wrappers.dfy ===
/** The optional-value datatype used by the searches of this model. */
module Wrappers {

  /** Either no value, or one value. */
  datatype Option<+T> = None | Some(value: T)
}
